=== FILE: README.md ===
# Request management: result envelope and create handler

This project models the two pieces of the request-management library that
have behaviour of their own.

- **The operation-result envelope** (`OperationResult` and its typed
  subclass `OperationResult<T>`). The create handler reports its outcome
  in this envelope. It has a success flag, an HTTP status (OK, BadRequest or
  NotFound) and an optional map from field name to error messages. The
  typed variant also has a payload. Callers obtain envelopes from static
  factories, and the model covers exactly what those factories return.
- **The generic create handler** (`PostRequestHandler.Handle`). It rejects
  a null request. It then asks the concrete handler's
  `GenerateDomainEntity` hook to build an entity, passes that entity once
  to the repository's `Create`, and returns a success envelope holding the
  entity's identifier as it reads after `Create`.

Files:

- `wrappers.dfy` (module `Wrappers`): `Option`, which stands in for a
  nullable value, and `Outcome`, which says how a call ends. A call
  returns a value, throws an argument-null error naming the parameter, or
  lets a collaborator's exception propagate.
- `operation_result.dfy` (module `OperationResults`): the envelope, its
  field invariant `Consistent`, and the factories. The C# overloads get
  distinct names here. `Success`/`SuccessOf` stand for `Success()` and
  `Success<T>(data)`. `Fail`/`FailOf` stand for `Fail(errors)` and
  `Fail<T>(errors)`. `FailWithMessage`/`FailWithMessageOf` stand for the
  two `Fail(string)` overloads. `NotFoundOf` stands for `NotFound<T>()`.
  The typed envelope is the untyped one plus a payload: `TypedResult(base, data)`.
- `post_request_handler.dfy` (module `PostRequestHandler`): the handler as
  a pure function. The hook is a parameter `gen`. The repository is its
  sequence of stored entities plus a parameter `create`, which answers a
  create call with the identifier it assigns or with an exception. The
  function returns how the call ended, the repository afterwards and the
  trace of collaborator calls. `HandleInTurn` feeds a run of requests to
  `Handle` one after another against the same repository.

Modelling choices:

- A null argument is `None` of an `Option` parameter. An
  `ArgumentNullException` is `ArgNull(name)`, with the name `nameof`
  yields: `errors`, `errorMessage` or `request`.
- `Errors`, which the success and not-found factories never assign, is
  `None`. The payload the failure factories store, `default(T)`, is also
  `None`.
- The stored entity is the hook's entity with the identifier `create`
  assigned. When `create` throws, the model assumes nothing was stored.

## Model

| member | source | states |
|---|---|---|
| OperationResults.Success | RequestManagement/OperationResult.cs:31-38 | The result is a success with status OK and no error map. It satisfies the field invariant. |
| OperationResults.SuccessOf | RequestManagement/OperationResult.cs:46-53 | The result is the untyped success plus a payload equal to the given data. It satisfies the typed invariant, under which a payload is present exactly on success. |
| OperationResults.Fail | RequestManagement/OperationResult.cs:60-70 | A null map gives exactly the argument error for `errors`, and a present map always gives an envelope. That envelope is not a success, has status BadRequest, and holds exactly the given map. |
| OperationResults.FailOf | RequestManagement/OperationResult.cs:78-88 | Rejects a null map the same way. Otherwise its base is exactly the untyped `Fail` envelope, with no payload, and it satisfies the typed invariant. |
| OperationResults.SingleError | RequestManagement/OperationResult.cs:99-102 | The map built from one message has the empty field name as its only key, mapped to the one-element list of that message. |
| OperationResults.FailWithMessage | RequestManagement/OperationResult.cs:95-105 | A null message gives exactly the argument error for `errorMessage`. Otherwise the result equals `Fail` on the singleton map: a bad request whose only key is the empty string, mapped to `[message]`. |
| OperationResults.FailWithMessageOf | RequestManagement/OperationResult.cs:113-123 | A null message gives exactly the argument error. Otherwise the result equals `FailOf` on the singleton map, its base equals the untyped message failure, and it has no payload. |
| OperationResults.NotFoundOf | RequestManagement/OperationResult.cs:130-137 | The result is not a success, has status NotFound, and has neither an error map nor a payload. |
| OperationResults.ProducedIffConsistent | RequestManagement/OperationResult.cs:31-105 | An untyped envelope is returned by some untyped factory if and only if its fields satisfy the invariant and its status is not NotFound. No untyped factory returns NotFound. |
| OperationResults.ProducedOfIffConsistent | RequestManagement/OperationResult.cs:46-160 | A typed envelope is returned by some typed factory if and only if it satisfies the typed invariant. Success holds iff the status is OK, an error map is present iff the status is BadRequest, and a payload is present iff the envelope is a success. |
| OperationResults.MessageFailuresAreSingletonFailures | RequestManagement/OperationResult.cs:95-105 | The message factory returns exactly the consistent bad requests whose error map has the empty field name as its only key, mapped to a single message. |
| PostRequestHandler.Handle | RequestManagement/PostRequestHandler.cs:46-55 | A null request gives the argument error for `request`, makes no calls and leaves the repository unchanged. Otherwise the trace holds exactly two calls, in this order: the hook with the request, then `create` with the hook's entity. The handler returns iff `create` succeeds. On return, exactly one entity is appended: the hook's entity under the assigned identifier. The result is then a consistent success carrying that stored identifier, never a failure or not-found envelope. Whenever `create` throws, the outcome is that same exception and the repository is unchanged; no other exception is raised. |
| PostRequestHandler.HandleInTurn | RequestManagement/PostRequestHandler.cs:50-54 | Across consecutive calls against one repository, the repository only grows, by one entity per returned call. The i-th returned result is the success for the i-th appended entity's identifier, and that entity has the fields the hook built from the i-th request. Every request is handled unless a call does not return. The run then ends with the outcome `Handle` gives for that request against the repository as the run left it, and that outcome is not a return. |
| PostRequestHandler.InTurnStepsAreHandle | RequestManagement/PostRequestHandler.cs:50-54 | Each returned call of a run is `Handle` itself, applied to its request against the repository the earlier calls left. That call returned exactly the run's i-th result, so the identifier `create` assigned, and appended exactly the run's i-th stored entity. Together with `HandleInTurn`'s contract, the run stops exactly at the first call that does not return. |

## Left out

- Asynchrony and the `CancellationToken`: `Handle` does not pass the token to `Repository.Create` (RequestManagement/PostRequestHandler.cs:52), so the model makes no cancellation claim.
- PostRequestHandler.Handle: exceptions thrown by the `GenerateDomainEntity` hook are not modelled; the hook is a total function.
- PostRequestHandler.Handle: a null entity returned by the hook is not modelled. `TEntity` is a class type, so the hook may return null. C# would then pass null to `Create`, and reading `entity.Id` would throw a null-reference exception unless `Create` had thrown already. The model's hook always returns an entity.
- PostRequestHandler.Handle: the real repository and how it generates identifiers belong to an external package that is not part of this model. The repository here is an abstract sequence plus a create function, and it is assumed to store nothing when it throws.
- The handler's doc comment promises a bad-request result with errors. The code never builds one, and the model follows the code: `Handle` never returns a failure envelope.
- OperationResults.SuccessOf: in C#, `Success<T>(null)` or `Success<T>(default(T))` stores the same payload value that `Fail<T>` and `NotFound<T>` store. The model always stores `Some(data)`, so the rule "payload present iff success" holds in the model but is weaker in C#.
- OperationResults.Fail: the C# envelope keeps a reference to the caller's dictionary, so the caller can still change `Errors` after construction. The model's envelope is an immutable value and does not model that aliasing.
- OperationResults.Fail: the C# error dictionary may map a field name to a null message list, or to a list that contains a null message, and `Fail` stores such a map unchanged. `ErrorMap` (`map<string, seq<string>>`) cannot represent either, so the model covers only maps without nulls inside.
- The envelopes the factories do not build are not modelled. `OperationResult` has an implicit public parameterless constructor, and `OperationResult<T>(T)` is internal (RequestManagement/OperationResult.cs:152). Through either one, code can build an envelope whose status is `(HttpStatusCode)0` and whose `Errors` is null. `HttpStatus` has only the three values the factories assign: it leaves out 0 and every other `HttpStatusCode` value.
- Mutation after construction: the setters are `protected`, so only subclasses can reassign the properties. But `Errors` is exposed as a mutable `IDictionary` (RequestManagement/OperationResult.cs:25). Any holder of an envelope can add, remove or replace its entries after construction, for every factory that sets it. That includes the dictionary `Fail(string)` builds internally: `Fail("x").Errors.Clear()` leaves a bad request with an empty map. The model's envelope is an immutable value and does not capture this.
- `RequestManagement/RequestManagementModule.cs` (container registration and pipeline ordering), `SampleApiWebApp/Controllers/Teams/TeamsController.cs` (routing and dispatch) and `SampleApiWebApp/Models/Mappings/PlayerMappings.cs` (mapping profile configuration) are framework glue with no logic of their own. The status-to-HTTP-response mapping `ToActionResult` that the controller calls is not part of this model.

=== FILE: operation_result.dfy ===
/** The operation-result envelope: a handler reports its outcome in it
as a success flag, an HTTP status, an optional field-keyed error map and,
for the typed variant, an optional payload. The model covers the envelopes
the factory functions below return; they are immutable values.
 */
module OperationResults {
  import opened Wrappers

  /** The three HTTP status codes the factories ever assign. */
  datatype HttpStatus = OK | BadRequest | NotFound

  /** Field name to the ordered list of messages about that field. */
  type ErrorMap = map<string, seq<string>>

  /** Parameter names reported by the argument-null checks. */
  const ErrorsParam := "errors"
  const MessageParam := "errorMessage"

  /** The untyped envelope. `errors` is None where the factory never assigns it. */
  datatype OperationResult = OperationResult(isSuccess: bool, status: HttpStatus, errors: Option<ErrorMap>)
  {
    /** The invariant linking the fields: success means OK, and an error
        map is present exactly for a bad request. */
    predicate Consistent()
    {
      && (isSuccess <==> status == OK)
      && (errors.Some? <==> status == BadRequest)
    }
  }

  /** The typed envelope, which extends the untyped one with a payload.
      `data` is None where the factory stores `default(T)`. */
  datatype TypedResult<T> = TypedResult(base: OperationResult, data: Option<T>)
  {
    /** The untyped invariant, plus: a payload is present exactly on success. */
    predicate Consistent()
    {
      base.Consistent() && (data.Some? <==> base.isSuccess)
    }
  }

  /** The error map holding one message that concerns no particular field. */
  function SingleError(message: string): (e: ErrorMap)
    ensures e.Keys == {""}
    ensures e[""] == [message]
  {
    map["" := [message]]
  }

  /** A success without payload. */
  function Success(): (r: OperationResult)
    ensures r.isSuccess && r.status == OK
    ensures r.errors.None?
    ensures r.Consistent()
  {
    OperationResult(true, OK, None)
  }

  /** A success carrying `data`. */
  function SuccessOf<T>(data: T): (r: TypedResult<T>)
    ensures r.base == Success()
    ensures r.data == Some(data)
    ensures r.Consistent()
  {
    TypedResult(Success(), Some(data))
  }

  /** A bad request carrying the given error map; a null map is rejected
      before anything is built. */
  function Fail(errors: Option<ErrorMap>): (r: Outcome<OperationResult>)
    ensures errors.None? <==> r == ArgNull(ErrorsParam)
    ensures errors.Some? ==> r.Returned?
    ensures r.Returned? ==> !r.value.isSuccess && r.value.status == BadRequest
    ensures r.Returned? ==> r.value.errors == errors
    ensures r.Returned? ==> r.value.Consistent()
  {
    match errors
    case None => ArgNull(ErrorsParam)
    case Some(e) => Returned(OperationResult(false, BadRequest, Some(e)))
  }

  /** The typed bad request: the same envelope as `Fail`, with no payload. */
  function FailOf<T>(errors: Option<ErrorMap>): (r: Outcome<TypedResult<T>>)
    ensures errors.None? <==> r == ArgNull(ErrorsParam)
    ensures r.Returned? <==> Fail(errors).Returned?
    ensures r.Returned? ==> r.value.base == Fail(errors).value && r.value.data.None?
    ensures r.Returned? ==> r.value.Consistent()
  {
    match errors
    case None => ArgNull(ErrorsParam)
    case Some(e) => Returned(TypedResult(OperationResult(false, BadRequest, Some(e)), None))
  }

  /** A bad request with one message under the empty field name; a null
      message is rejected before any map is built. */
  function FailWithMessage(message: Option<string>): (r: Outcome<OperationResult>)
    ensures message.None? <==> r == ArgNull(MessageParam)
    ensures message.Some? ==> r == Fail(Some(SingleError(message.value)))
    ensures r.Returned? ==> r.value.status == BadRequest && r.value.errors.Some?
    ensures r.Returned? ==> r.value.errors.value.Keys == {""} && r.value.errors.value[""] == [message.value]
  {
    match message
    case None => ArgNull(MessageParam)
    case Some(m) => Fail(Some(SingleError(m)))
  }

  /** The typed variant of `FailWithMessage`. */
  function FailWithMessageOf<T>(message: Option<string>): (r: Outcome<TypedResult<T>>)
    ensures message.None? <==> r == ArgNull(MessageParam)
    ensures message.Some? ==> r == FailOf(Some(SingleError(message.value)))
    ensures r.Returned? ==> r.value.base == FailWithMessage(message).value && r.value.data.None?
  {
    match message
    case None => ArgNull(MessageParam)
    case Some(m) => FailOf(Some(SingleError(m)))
  }

  /** The typed not-found result: no errors and no payload. */
  function NotFoundOf<T>(): (r: TypedResult<T>)
    ensures !r.base.isSuccess && r.base.status == NotFound
    ensures r.base.errors.None? && r.data.None?
    ensures r.Consistent()
  {
    TypedResult(OperationResult(false, NotFound, None), None)
  }

  /** An untyped envelope some factory call can return. */
  ghost predicate Produced(r: OperationResult)
  {
    || r == Success()
    || (exists e: ErrorMap :: Fail(Some(e)) == Returned(r))
    || (exists m: string :: FailWithMessage(Some(m)) == Returned(r))
  }

  /** A typed envelope some factory call can return. */
  ghost predicate ProducedOf<T(!new)>(r: TypedResult<T>)
  {
    || (exists d: T :: SuccessOf(d) == r)
    || (exists e: ErrorMap :: FailOf(Some(e)) == Returned(r))
    || (exists m: string :: FailWithMessageOf(Some(m)) == Returned(r))
    || r == NotFoundOf()
  }

  /** The untyped factories return exactly the consistent envelopes that are
      not NotFound: there is no untyped not-found factory. */
  lemma ProducedIffConsistent(r: OperationResult)
    ensures Produced(r) <==> r.Consistent() && r.status != NotFound
  {
  }

  /** The typed factories return exactly the consistent typed envelopes. */
  lemma ProducedOfIffConsistent<T(!new)>(r: TypedResult<T>)
    ensures ProducedOf(r) <==> r.Consistent()
  {
    if r.Consistent() {
      match r.base.status
      case OK => assert SuccessOf(r.data.value) == r;
      case BadRequest => assert FailOf(Some(r.base.errors.value)) == Returned(r);
      case NotFound =>
    }
  }

  /** The message factories return exactly those bad requests whose error
      map has the empty field name as its only key, with one message. */
  lemma MessageFailuresAreSingletonFailures(r: OperationResult)
    ensures (exists m: string :: FailWithMessage(Some(m)) == Returned(r))
        <==> (&& r.Consistent() && r.status == BadRequest
              && r.errors.value.Keys == {""} && |r.errors.value[""]| == 1)
  {
    if r.Consistent() && r.status == BadRequest && r.errors.value.Keys == {""} && |r.errors.value[""]| == 1 {
      var m := r.errors.value[""][0];
      assert r.errors.value[""] == [m];
      assert r.errors.value == SingleError(m);
      assert FailWithMessage(Some(m)) == Returned(r);
    }
  }
}

=== FILE: post_request_handler.dfy ===
/** The generic create handler: it rejects a null request, asks the concrete
handler's hook to build a domain entity from the request, hands that entity
to the repository once, and reports the identifier the entity carries after
the repository has stored it.

The hook and the repository are collaborators the handler cannot see, so
they are parameters: `gen` is the hook, and the repository is its sequence
of stored entities together with `create`, which answers a create call
either with the identifier it assigns or with an exception.
 */
module PostRequestHandler {
  import opened Wrappers
  import opened OperationResults

  /** Parameter name reported by the argument-null check. */
  const RequestParam := "request"

  /** A domain entity: its identifier and everything else about it. */
  datatype Entity<Id, Fields> = Entity(id: Id, fields: Fields)

  /** A call the handler makes to one of its collaborators. */
  datatype Call<Req, Id, Fields> =
    | GenerateDomainEntity(request: Req)
    | RepositoryCreate(entity: Entity<Id, Fields>)

  /** How the repository answers a create call. */
  datatype CreateReply<Id> = Assigned(id: Id) | Threw(error: string)

  /** Everything one call of the handler produces: how it ended, the
      repository's entities afterwards, and the collaborator calls made. */
  datatype Handled<Req, Id, Fields> = Handled(
    outcome: Outcome<TypedResult<Id>>,
    entities: seq<Entity<Id, Fields>>,
    calls: seq<Call<Req, Id, Fields>>)

  /** Handles one create request against the repository holding `entities`. */
  function Handle<Req, Id, Fields>(
    request: Option<Req>,
    gen: Req -> Entity<Id, Fields>,
    create: (seq<Entity<Id, Fields>>, Entity<Id, Fields>) -> CreateReply<Id>,
    entities: seq<Entity<Id, Fields>>): (h: Handled<Req, Id, Fields>)
    // A null request is rejected before either collaborator is called.
    ensures request.None? ==> h.outcome == ArgNull(RequestParam) && h.entities == entities && h.calls == []
    // Otherwise the trace holds exactly two calls: the hook with the request,
    // then create with the entity the hook built.
    ensures request.Some? ==>
      h.calls == [GenerateDomainEntity(request.value), RepositoryCreate(gen(request.value))]
    // The handler returns exactly when the request is present and create succeeds.
    ensures h.outcome.Returned? <==> request.Some? && create(entities, gen(request.value)).Assigned?
    // On return: one entity appended, the hook's entity with the assigned
    // identifier, and the result is a success carrying that stored identifier.
    ensures h.outcome.Returned? ==>
      && |h.entities| == |entities| + 1
      && h.entities[..|entities|] == entities
      && h.entities[|entities|] == gen(request.value).(id := create(entities, gen(request.value)).id)
      && h.outcome.value == SuccessOf(h.entities[|entities|].id)
    // The handler never builds a failure or not-found envelope.
    ensures h.outcome.Returned? ==> h.outcome.value.base.isSuccess && h.outcome.value.base.status == OK
    // An exception from create propagates unchanged and stores nothing.
    ensures request.Some? && create(entities, gen(request.value)).Threw? ==>
      && h.outcome == Raised(create(entities, gen(request.value)).error)
      && h.entities == entities
    // No other exception is raised.
    ensures h.outcome.Raised? ==>
      && request.Some? && create(entities, gen(request.value)) == Threw(h.outcome.error)
      && h.entities == entities
  {
    match request
    case None => Handled(ArgNull(RequestParam), entities, [])
    case Some(req) =>
      var entity := gen(req);
      var calls := [GenerateDomainEntity(req), RepositoryCreate(entity)];
      match create(entities, entity)
      case Threw(error) => Handled(Raised(error), entities, calls)
      case Assigned(id) =>
        var stored := entity.(id := id);
        Handled(Returned(SuccessOf(stored.id)), entities + [stored], calls)
  }

  /** What handling a run of requests, one after another against the same
      repository, produces: the results of the calls that returned, the
      repository's entities afterwards, and how the first call that did not
      return ended, if there was one. */
  datatype Session<Id, Fields> = Session(
    results: seq<TypedResult<Id>>,
    entities: seq<Entity<Id, Fields>>,
    halted: Option<Outcome<TypedResult<Id>>>)

  /** The i-th result and the i-th appended entity of a run correspond to
      the i-th request. */
  ghost predicate StoredInOrder<Req, Id, Fields>(
    requests: seq<Option<Req>>,
    gen: Req -> Entity<Id, Fields>,
    entities: seq<Entity<Id, Fields>>,
    s: Session<Id, Fields>)
  {
    && |s.results| <= |requests|
    && |s.entities| == |entities| + |s.results|
    && s.entities[..|entities|] == entities
    && forall i :: 0 <= i < |s.results| ==>
      && requests[i].Some?
      && s.entities[|entities| + i].fields == gen(requests[i].value).fields
      && s.results[i] == SuccessOf(s.entities[|entities| + i].id)
  }

  /** A run that first stores `stored` for the first request and then
      continues as `rest` keeps results and entities in request order. */
  lemma StoredInTurn<Req, Id, Fields>(
    requests: seq<Option<Req>>,
    gen: Req -> Entity<Id, Fields>,
    entities: seq<Entity<Id, Fields>>,
    stored: Entity<Id, Fields>,
    r: TypedResult<Id>,
    rest: Session<Id, Fields>)
    requires |requests| > 0 && requests[0].Some?
    requires stored.fields == gen(requests[0].value).fields && r == SuccessOf(stored.id)
    requires StoredInOrder(requests[1..], gen, entities + [stored], rest)
    ensures StoredInOrder(requests, gen, entities, Session([r] + rest.results, rest.entities, rest.halted))
  {
  }

  /** Handles `requests` in order, stopping at the first call that throws. */
  function HandleInTurn<Req, Id, Fields>(
    requests: seq<Option<Req>>,
    gen: Req -> Entity<Id, Fields>,
    create: (seq<Entity<Id, Fields>>, Entity<Id, Fields>) -> CreateReply<Id>,
    entities: seq<Entity<Id, Fields>>): (s: Session<Id, Fields>)
    // The repository only grows, by one entity per returned call, and the
    // i-th returned call stored the hook's entity for the i-th request and
    // reported the identifier that entity was stored under.
    ensures StoredInOrder(requests, gen, entities, s)
    // Every request is handled unless a call does not return, and then the
    // run stops at that call with its exception.
    ensures s.halted.None? <==> |s.results| == |requests|
    ensures s.halted.Some? ==>
      && !s.halted.value.Returned?
      && s.halted.value == Handle(requests[|s.results|], gen, create, s.entities).outcome
    decreases |requests|
  {
    if requests == [] then Session([], entities, None)
    else
      var h := Handle(requests[0], gen, create, entities);
      match h.outcome
      case Returned(r) =>
        var rest := HandleInTurn(requests[1..], gen, create, h.entities);
        StoredInTurn(requests, gen, entities, h.entities[|entities|], r, rest);
        assert rest.halted.Some? ==> requests[1 + |rest.results|] == requests[1..][|rest.results|];
        Session([r] + rest.results, rest.entities, rest.halted)
      case _ => Session([], entities, Some(h.outcome))
  }

  /** The i-th returned call of a run is `Handle` itself, applied to the
      i-th request against the repository as the earlier calls left it: it
      returned the i-th result and appended exactly the i-th stored entity. */
  lemma {:induction false} InTurnStepsAreHandle<Req, Id, Fields>(
    requests: seq<Option<Req>>,
    gen: Req -> Entity<Id, Fields>,
    create: (seq<Entity<Id, Fields>>, Entity<Id, Fields>) -> CreateReply<Id>,
    entities: seq<Entity<Id, Fields>>,
    i: nat)
    requires i < |HandleInTurn(requests, gen, create, entities).results|
    ensures Handle(requests[i], gen, create, HandleInTurn(requests, gen, create, entities).entities[..|entities| + i]).outcome
      == Returned(HandleInTurn(requests, gen, create, entities).results[i])
    ensures Handle(requests[i], gen, create, HandleInTurn(requests, gen, create, entities).entities[..|entities| + i]).entities
      == HandleInTurn(requests, gen, create, entities).entities[..|entities| + i + 1]
    decreases |requests|
  {
    var s := HandleInTurn(requests, gen, create, entities);
    var h := Handle(requests[0], gen, create, entities);
    assert h.outcome.Returned?;
    var rest := HandleInTurn(requests[1..], gen, create, h.entities);
    assert s.entities == rest.entities && s.results == [h.outcome.value] + rest.results;
    assert rest.entities[..|entities| + 1] == h.entities;
    if i == 0 {
      assert s.entities[..|entities|] == entities;
    } else {
      InTurnStepsAreHandle(requests[1..], gen, create, h.entities, i - 1);
      assert requests[i] == requests[1..][i - 1];
      assert |h.entities| + (i - 1) == |entities| + i;
    }
  }
}

=== FILE: wrappers.dfy ===
/** The two datatypes the envelope and the handler share.
- Option<T>: an argument or field that the C# code may leave null, and the
  `default(T)` payload of a typed failure.
- Outcome<T>: the three ways a modelled call ends. It returns a value, it
  throws an argument-null error naming the parameter, or it lets an
  exception raised by a collaborator propagate.
 */
module Wrappers {

  /** A value that is either present or null. */
  datatype Option<+T> = None | Some(value: T)

  /** How a call of the modelled code ends. */
  datatype Outcome<+T> =
    | Returned(value: T)
    /** An argument-null exception thrown for the parameter named `param`. */
    | ArgNull(param: string)
    /** An exception from a collaborator, propagated unchanged. */
    | Raised(error: string)
}
